=== FILE: README.md ===
# StayFinder authentication core in Dafny

This project models the sequential logic of the StayFinder rental application's
authentication layer:

- the **route guard**: the Next.js `config.matcher`, next-auth's `authorized`
  callback and the custom role check in `middleware.ts`;
- the **signup handler** `POST /api/auth/signup`, as a transition on the users
  collection;
- the **User and Property Mongoose schemas**: the setters (`trim`, `lowercase`),
  the validators (`required`, `enum`), the defaults and the unique email index;
- the **Zod form schemas** `signUpSchema` and `loginSchema`.

Everything is pure: immutable datatypes and total functions, with lemmas that
relate each operation to an independent statement of what it should do.

## Layout

| file | module | contents |
|---|---|---|
| `values.dfy` | `Values` | `Option`, `Result`, the opaque `ObjectId` |
| `js_string.dfy` | `JsString` | JavaScript `trim` (ECMAScript whitespace set), `toLowerCase`, UTF-16 `length`, `startsWith`, truthiness |
| `middleware.dfy` | `Middleware` | `RoleGate` (the custom function), `Matched`, `Authorized`, `Guard`, and a declarative `Policy` |
| `user_model.dfy` | `UserModel` | `Role`, `CreateUser` (setters, defaults, validators), the `Store` keyed by normalised email, `FindByEmail`, `InsertUser` |
| `property_model.dfy` | `PropertyModel` | `PropertyStatus`, `CreateProperty` |
| `signup_route.dfy` | `SignupRoute` | `Post`: body, database reachability and hash function in; response and new store out |
| `auth_schemas.dfy` | `AuthSchemas` | `SignUpIssues`, `LoginIssues` (the set of Zod issues a parse reports) |
| `signup_flow.dfy` | `SignupFlow` | how the sign-up form's schema and the route fit together |

## Modelling choices

- **Uninterpreted pieces become parameters.** bcrypt's `hash` is a parameter
  `hash: (string, nat) -> string`; the route calls it with cost `10`. Zod's email
  check is a parameter `isEmail: string -> bool`. Whether `connectDB()` throws is
  a parameter `Db`.
- **The users collection is a `map<string, UserRecord>` keyed by the stored email.**
  `StoreInvariant` says that every record sits under its own email and is well
  formed. Map keys are unique, so this invariant is the unique index on `email`
  (`EmailsUnique`).
- **`findOne({ email })` uses the normalised email.** Mongoose casts a query
  condition through the path's setters, so the duplicate check compares trimmed,
  lower-cased emails. `InsertUser` still refuses a second record with the same
  email (`DuplicateKey`), as the unique index does. After the pre-check this
  cannot happen in a sequential run, but when it does, the route answers 500.
- **Setter order.** Mongoose runs the `email` setters in an order that the
  schema's declaration does not make obvious. `TrimToLowerCommute` proves
  that the order does not matter.
- **Mongoose `required` on a string rejects the empty string after the setters
  ran.** So a name or email made only of whitespace gets past the route's
  `!name` test, is emptied by `trim`, and is refused by `User.create`. The route's
  catch-all turns that into a 500 (`BlankNameIsServerError`). The sign-up form
  accepts a two-space name, because `min(2)` counts it as two characters
  (`BlankNameAcceptedByFormRefusedByServer`).
- **A role outside the enum is a 500, not a 400.** The route only checks that
  the role is truthy. The schema's `enum` validator then refuses the document
  inside the `try` (`BadRoleIsServerError`).
- **Zod refinements.** Zod runs the password-match refinement only when the
  object parse was not aborted. A missing key or a role outside the enum aborts
  the parse. A too-short string or a bad email only marks it dirty
  (`PasswordMismatch`).
- **Zod's `min(n)` counts UTF-16 code units** (`Utf16Length`), as JavaScript's
  `length` does.
- **Behaviour of the code worth noting:**
  - The matcher lists only `/owner/:path*`, `/tenant/:path*` and
    `/dashboard/:path*`; it does not list `/auth/sign-in`. So the custom function's
    sign-in branch, which sends a signed-in user on any path starting with
    `/auth/sign-in` to `/`, cannot be reached through the guard
    (`RoleGate`, `SignInBranchUnreachable`).
  - The custom function's `startsWith("/owner")` also matches `/owners`. Only
    the matcher keeps such paths public (`OwnersPrefixOnlyExcludedByMatcher`).
  - Signup does not validate the role with a 400. A bad role leads to the
    500 described above.
  - The success response carries the whole created record, including the
    password hash. The model returns it too (`Response.user`).

## Model

| member | source | states |
|---|---|---|
| `Middleware.Guard` | middleware.ts:5-46 | outside the matcher the request passes; inside it, no token means the sign-in redirect and nothing else leads there; the guard never redirects to `/` |
| `Middleware.GuardFollowsPolicy` | middleware.ts:7-45 | the guard equals a declarative policy: public paths pass; each protected area needs a token and a role the area admits (owner area: `owner`, tenant area: `tenant`, dashboard: any) |
| `Middleware.PatternPrefixes` | middleware.ts:12-23 | a path matched by one matcher entry starts with that entry's base and not with another base or `/auth/sign-in`, so at most one custom check applies |
| `Middleware.UnmatchedPassesThrough` | middleware.ts:40-45 | a path matched by none of `/owner/:path*`, `/tenant/:path*`, `/dashboard/:path*` is passed through whatever the token |
| `Middleware.WrongRoleUnauthorized` | middleware.ts:12-19 | a path starting with `/owner` (or `/tenant`) and a token without that role is redirected to `/unauthorized`, by the custom function and by the whole guard |
| `Middleware.RightRolePasses` | middleware.ts:12-19 | an owner in the owner area, a tenant in the tenant area and any signed-in user on the dashboard get `next` |
| `Middleware.RoleGate` | middleware.ts:7-30 | the custom function never sends anyone to sign-in; it sends to `/unauthorized` exactly a path starting with `/owner` (or `/tenant`) without that role; it sends to `/` exactly a signed-in request on a path starting with `/auth/sign-in`; every other request gets `next` |
| `Middleware.SignInBranchUnreachable` | middleware.ts:22-27 | every path starting with `/auth/sign-in` is outside the matcher, so the guard passes it through for every token, while the custom function alone would send a signed-in user there to `/` |
| `Middleware.OwnersPrefixOnlyExcludedByMatcher` | middleware.ts:12 | for every token, or none, the custom function alone would send a non-owner on `/ownersX` to `/unauthorized`, while the matcher leaves the path public and the guard passes it through |
| `JsString.Trim` | src/models/UserModel.ts:28 | the `trim` setter's result has no whitespace at either end, is no longer than its input, and is empty exactly when the input is all whitespace |
| `JsString.TrimStrips` | src/models/UserModel.ts:28 | trimming whitespace + core + whitespace, where the core has no whitespace at its ends, gives back exactly the core |
| `JsString.TrimSplits` | src/models/UserModel.ts:35 | every string is its trimmed form with whitespace before and after it |
| `JsString.TrimOfTrimmed` | src/models/UserModel.ts:28 | a string with no whitespace at either end is unchanged by `trim` |
| `JsString.TrimIdempotent` | src/models/UserModel.ts:28 | `trim` is idempotent |
| `JsString.ToLower` | src/models/UserModel.ts:34 | the `lowercase` setter keeps the length and maps each character on its own: an ASCII upper-case letter becomes the lower-case letter at the same alphabet position, every other character is kept, and no upper-case letter is left |
| `JsString.ToLowerOfLower` | src/models/UserModel.ts:34 | a string without upper-case letters is its own `lowercase` form |
| `JsString.ToLowerIdempotent` | src/models/UserModel.ts:34 | `lowercase` is idempotent |
| `JsString.TrimToLowerCommute` | src/models/UserModel.ts:34-35 | the `lowercase` and `trim` setters commute, so their order does not matter |
| `JsString.Utf16Length` | src/schemas/auth/loginSchema.ts:4-5 | the length Zod's `min` measures lies between the number of characters and twice that; it is the number of characters when all lie in the Basic Multilingual Plane, and twice that when none do (with `Utf16LengthAppend`, each character counts once, or twice outside the plane) |
| `JsString.Utf16LengthAppend` | src/schemas/auth/loginSchema.ts:4-5 | the length Zod's `min` measures is additive over concatenation |
| `UserModel.ParseRole` | src/models/UserModel.ts:4-7 | the role enum accepts exactly `"owner"` and `"tenant"`, and maps each to the member with that value |
| `UserModel.NormalizeEmail` | src/models/UserModel.ts:30-36 | a normalised email has no whitespace at its ends and no upper-case letter; it is empty exactly when the raw email is all whitespace |
| `UserModel.NormalizeEmailIdempotent` | src/models/UserModel.ts:34-35 | normalising an email twice is the same as normalising it once |
| `UserModel.ViolationsExact` | src/models/UserModel.ts:25-46 | a path's validator fails exactly when the raw value breaks its rule: name or email absent or all whitespace, password absent or empty, role present but outside the enum |
| `UserModel.CreateUser` | src/models/UserModel.ts:23-65 | a document is accepted exactly when all four rules hold; the record then holds the trimmed name, the trimmed lower-cased email, the password as given, the given role or `tenant`, the trimmed phone when one was given and no phone otherwise, and the given `properties` and `rentedProperties` (empty when absent); a refusal names exactly the failing paths |
| `UserModel.NormalisationIdempotent` | src/models/UserModel.ts:25-50 | a well-formed record passes the setters and validators unchanged |
| `UserModel.CreateThenResave` | src/models/UserModel.ts:25-50 | re-saving a created record reproduces it |
| `UserModel.RoleDefaultsToTenant` | src/models/UserModel.ts:44 | a user with valid name, email and password and no role is accepted, and is a tenant |
| `UserModel.EmailsUnique` | src/models/UserModel.ts:33 | under the store invariant, no two stored users share an email |
| `UserModel.FindByEmail` | src/app/api/auth/signup/route.ts:16 | `findOne({ email })` returns a stored user; under the store invariant it finds one exactly when some stored user has the setter-normalised email, and the one found has that email |
| `UserModel.FindByEmailScans` | src/app/api/auth/signup/route.ts:16-17 | under the store invariant, the keyed lookup finds a user exactly when some stored user has the normalised email |
| `UserModel.InsertUser` | src/app/api/auth/signup/route.ts:23-28 | creation succeeds exactly when the document is valid and its email is new; the store then grows by exactly that record and keeps its invariant; an invalid document is refused with its failing paths before the unique index is consulted, and a valid document whose email is already stored is refused with the duplicate-key error |
| `PropertyModel.ParseStatus` | src/models/Property.ts:5-9 | the status enum accepts exactly `available`, `rented` and `maintenance` |
| `PropertyModel.ViolationsExact` | src/models/Property.ts:31-78 | no validator fails exactly when the required paths are present, with a non-blank title and non-empty strings, and a given status is an enum value |
| `PropertyModel.CreateProperty` | src/models/Property.ts:29-81 | a property is accepted exactly under those rules; the title is then trimmed; description, address, city, state, country, rent, owner, tenant and given images are kept; images default to none and status to `available`; a refusal names every failing path, the title among them when it is absent or blank |
| `PropertyModel.StatusAlwaysMember` | src/models/Property.ts:74-77 | a stored status is always one of the three values, and `available` when none was given |
| `PropertyModel.OptionalPathsIrrelevant` | src/models/Property.ts:60-73 | changing or removing tenant and images never changes whether a property is accepted |
| `PropertyModel.MissingRequiredRejected` | src/models/Property.ts:31-69 | a property lacking title, description, address, city, state, country, rent or owner is refused |
| `PropertyModel.NormalisationIdempotent` | src/models/Property.ts:31-35 | a well-formed property passes the setters and validators unchanged |
| `SignupRoute.Post` | src/app/api/auth/signup/route.ts:6-35 | every response is 200, 400 or 500; failures leave the store as it was; a 200 adds exactly one record under a new email; the store invariant is kept; a body that cannot be read, and a complete body on an unreachable database, fall into the catch-all 500 |
| `SignupRoute.MissingFieldRejected` | src/app/api/auth/signup/route.ts:10-12 | a missing or empty name, email, password or role gives 400 "All fields are required" and the store unchanged |
| `SignupRoute.DuplicateRejected` | src/app/api/auth/signup/route.ts:16-19 | with all four fields non-empty, on a reachable database, an email already held (after normalisation) gives 400 "User already exists" and the store unchanged; on an unreachable database the same request gives 500, since the connection comes first |
| `SignupRoute.SuccessShape` | src/app/api/auth/signup/route.ts:10-30 | a 200 comes only from a complete body on a reachable database with a new email, and returns the record the schema built from the body with the hashed password |
| `SignupRoute.SignupSucceeds` | src/app/api/auth/signup/route.ts:10-30 | signup answers 200 exactly when the password is non-empty, the database is reachable, name and email are not blank, the normalised email is new, the hash is non-empty and the role is `owner` or `tenant` |
| `SignupRoute.SignupStores` | src/app/api/auth/signup/route.ts:21-30 | a successful signup stores, under the normalised email, the trimmed name, the normalised email, the given role and `hash(password, 10)` in place of the password |
| `SignupRoute.BadRoleIsServerError` | src/app/api/auth/signup/route.ts:23-33 | a non-empty role outside the enum passes the route's check but gives 500 "Internal server error" and the store unchanged |
| `SignupRoute.BlankNameIsServerError` | src/app/api/auth/signup/route.ts:23-33 | a whitespace-only name passes the route's check but is refused by the schema: 500 and the store unchanged |
| `SignupRoute.PasswordNeverStoredPlain` | src/app/api/auth/signup/route.ts:21-27 | when the hash never returns its input, the stored password is never the plaintext |
| `SignupRoute.SecondSignupRejected` | src/app/api/auth/signup/route.ts:14-19 | after a successful signup, any signup with all four fields non-empty whose email normalises to the same is refused on a reachable database as a duplicate on the new store, so no second record appears |
| `SignupRoute.JoSignsUp` | src/app/api/auth/signup/route.ts:6-30 | signing up "Jo" / "jo@x.com" / "secret1" / "tenant" on a store without that email succeeds and stores a tenant |
| `AuthSchemas.SignUpIssues` | src/schemas/auth/signUpSchema.ts:3-17 | a sign-up form raises no issue exactly when name ≥ 2, email well formed, password and confirmation ≥ 6, role `tenant` or `owner`, and password = confirmation; a refinement issue is only on `confirmPassword` and only for differing passwords |
| `AuthSchemas.SignUpRules` | src/schemas/auth/signUpSchema.ts:5-12 | each broken field rule raises its own issue: name too short, invalid email, password or confirmation too short, role invalid or missing |
| `AuthSchemas.PasswordMismatch` | src/schemas/auth/signUpSchema.ts:14-17 | differing passwords are reported on `confirmPassword` unless the parse was aborted, and the form is refused either way |
| `AuthSchemas.LoginIssues` | src/schemas/auth/loginSchema.ts:3-6 | a login form raises no issue exactly when the identifier has ≥ 3 and the password ≥ 6 characters; each short field raises its issue |
| `AuthSchemas.LoginAcceptsLonger` | src/schemas/auth/loginSchema.ts:4-5 | there is no upper bound: lengthening an accepted identifier or password keeps the form accepted |
| `SignupFlow.AcceptedFormPassesFieldCheck` | src/schemas/auth/signUpSchema.ts:3-17 | a form the schema accepts always gets past the route's required-fields check, and a 500 for it comes only from the database, a blank name or email, or an empty hash |
| `SignupFlow.BlankNameAcceptedByFormRefusedByServer` | src/app/api/auth/signup/route.ts:23-33 | a two-space name is accepted by the form schema but answered with 500 by the route |

## Left out

- Credential login, the JWT and session callbacks (`src/app/api/auth/[...nextauth]/options.ts`): these are outside the modelled core. The guard receives the token already decoded.
- `src/lib/dbConnect.ts`: connection handling is I/O. Its only effect on signup, a thrown error, is the `Db` parameter.
- Signature and expiry checks of the session token, and the missing-secret error page of `withAuth`: this is library behaviour. A token is either present (valid) or absent.
- The sign-in redirect URL and its `callbackUrl` are next-auth defaults. They are modelled as the target `SignIn`.
- Middleware.Matched: treats `base/:path*` as "equals base or starts with base/". It does not model path-to-regexp's handling of empty segments, letter case, `basePath` or locales.
- JsString.ToLower: maps only ASCII `A`–`Z`. JavaScript's full Unicode case mapping is not modelled.
- Request bodies whose fields are not strings (numbers, booleans, objects, `null`): Mongoose and Zod casting of such values is not modelled. A body that cannot be read is `Malformed` and gets 500.
- Document identifiers, `createdAt`/`updatedAt` and `console` logging: there are no clocks or id generators in the model.
- The race between `findOne` and `create` under concurrent signups: signup is modelled sequentially. The unique index appears as the `DuplicateKey` error.
- `rent` is a JavaScript number: it is an integer here, with no floating-point reasoning. Values that fail number casting are not modelled.
- Zod issue messages and the Mongoose validation messages: only the issue kinds and paths are modelled. The route's own response messages are modelled.
- `src/types/next-auth.d.ts`: types only. The token's role is kept as a plain string, so the guard is checked for any role value.
- The sign-up and sign-in pages are presentational. Only the body the sign-up page posts is modelled (`SignupFlow.BodyOf`).

=== FILE: auth_schemas.dfy ===
/** The Zod schemas the sign-up and sign-in forms validate against. A parse
    yields the set of issues found; the input is accepted when there are
    none. The email-format check is a parameter `isEmail`. */
module AuthSchemas {
  import opened Values
  import opened JsString

  datatype Field = NameField | EmailField | PasswordField | ConfirmPasswordField | RoleField | IdentifierField

  datatype IssueKind =
    | Required            // the key is absent
    | TooSmall(minimum: nat)
    | InvalidEmail
    | InvalidEnumValue
    | Custom              // raised by a refinement

  datatype Issue = Issue(path: Field, kind: IssueKind)

  /** `z.string().min(n)` on one field; the length is in UTF-16 code units. */
  function MinIssues(field: Field, v: Option<string>, n: nat): set<Issue> {
    if v.None? then {Issue(field, Required)}
    else if Utf16Length(v.value) < n then {Issue(field, TooSmall(n))}
    else {}
  }

  // ---------------------------------------------------------------- sign up

  datatype SignUpForm = SignUpForm(
    name: Option<string>,
    email: Option<string>,
    password: Option<string>,
    confirmPassword: Option<string>,
    role: Option<string>)

  const NameMin: nat := 2
  const PasswordMin: nat := 6
  const ConfirmPasswordMin: nat := 6

  function EmailIssues(v: Option<string>, isEmail: string -> bool): set<Issue> {
    if v.None? then {Issue(EmailField, Required)}
    else if !isEmail(v.value) then {Issue(EmailField, InvalidEmail)}
    else {}
  }

  predicate IsRoleOption(s: string) {
    s == "tenant" || s == "owner"
  }

  function RoleIssues(v: Option<string>): set<Issue> {
    if v.None? then {Issue(RoleField, Required)}
    else if !IsRoleOption(v.value) then {Issue(RoleField, InvalidEnumValue)}
    else {}
  }

  /** A missing key or a role outside the enum aborts the object parse; a
      too-short string or a bad email only marks it dirty. Zod runs the
      refinement on a dirty result but not on an aborted one. */
  predicate Aborted(f: SignUpForm) {
    f.name.None? || f.email.None? || f.password.None? || f.confirmPassword.None?
    || f.role.None? || !IsRoleOption(f.role.value)
  }

  /** The issues the object schema reports field by field. */
  function FieldIssues(f: SignUpForm, isEmail: string -> bool): (issues: set<Issue>)
    ensures forall i :: i in issues ==> i.kind != Custom
    ensures issues == {} <==>
      && f.name.Some? && Utf16Length(f.name.value) >= NameMin
      && f.email.Some? && isEmail(f.email.value)
      && f.password.Some? && Utf16Length(f.password.value) >= PasswordMin
      && f.confirmPassword.Some? && Utf16Length(f.confirmPassword.value) >= ConfirmPasswordMin
      && f.role.Some? && IsRoleOption(f.role.value)
  {
    MinIssues(NameField, f.name, NameMin)
    + EmailIssues(f.email, isEmail)
    + MinIssues(PasswordField, f.password, PasswordMin)
    + MinIssues(ConfirmPasswordField, f.confirmPassword, ConfirmPasswordMin)
    + RoleIssues(f.role)
  }

  /** `signUpSchema.safeParse(f)`: the field issues, then the password-match
      refinement, reported on `confirmPassword`. */
  function SignUpIssues(f: SignUpForm, isEmail: string -> bool): (issues: set<Issue>)
    ensures issues == {} <==> ValidSignUp(f, isEmail)
    ensures forall i :: i in issues && i.kind == Custom ==>
      && i.path == ConfirmPasswordField
      && f.password.Some? && f.confirmPassword.Some? && f.password.value != f.confirmPassword.value
  {
    var fieldIssues := FieldIssues(f, isEmail);
    if Aborted(f) then fieldIssues
    else if f.password.value != f.confirmPassword.value then fieldIssues + {Issue(ConfirmPasswordField, Custom)}
    else fieldIssues
  }

  /** Every sign-up rule at once, stated on the form. */
  predicate ValidSignUp(f: SignUpForm, isEmail: string -> bool) {
    && f.name.Some? && Utf16Length(f.name.value) >= 2
    && f.email.Some? && isEmail(f.email.value)
    && f.password.Some? && Utf16Length(f.password.value) >= 6
    && f.confirmPassword.Some? && Utf16Length(f.confirmPassword.value) >= 6
    && f.role.Some? && (f.role.value == "tenant" || f.role.value == "owner")
    && f.password.value == f.confirmPassword.value
  }

  /** Each rule, and the issue it raises when broken. */
  lemma SignUpRules(f: SignUpForm, isEmail: string -> bool)
    ensures f.name.Some? && Utf16Length(f.name.value) < 2 ==> Issue(NameField, TooSmall(2)) in SignUpIssues(f, isEmail)
    ensures f.email.Some? && !isEmail(f.email.value) ==> Issue(EmailField, InvalidEmail) in SignUpIssues(f, isEmail)
    ensures f.password.Some? && Utf16Length(f.password.value) < 6 ==> Issue(PasswordField, TooSmall(6)) in SignUpIssues(f, isEmail)
    ensures f.confirmPassword.Some? && Utf16Length(f.confirmPassword.value) < 6 ==>
      Issue(ConfirmPasswordField, TooSmall(6)) in SignUpIssues(f, isEmail)
    ensures f.role.Some? && !IsRoleOption(f.role.value) ==> Issue(RoleField, InvalidEnumValue) in SignUpIssues(f, isEmail)
    ensures f.role.None? ==> Issue(RoleField, Required) in SignUpIssues(f, isEmail)
  {
  }

  /** Differing passwords raise the mismatch issue on `confirmPassword`
      whenever the parse was not aborted, even alongside length issues; an
      aborted parse (say, a role outside the enum) never reports it. */
  lemma PasswordMismatch(f: SignUpForm, isEmail: string -> bool)
    requires f.password.Some? && f.confirmPassword.Some? && f.password.value != f.confirmPassword.value
    ensures !Aborted(f) ==> Issue(ConfirmPasswordField, Custom) in SignUpIssues(f, isEmail)
    ensures Aborted(f) ==> Issue(ConfirmPasswordField, Custom) !in SignUpIssues(f, isEmail)
    ensures SignUpIssues(f, isEmail) != {}
  {
    if !Aborted(f) {
      assert Issue(ConfirmPasswordField, Custom) in SignUpIssues(f, isEmail);
    }
  }

  // ---------------------------------------------------------------- log in

  datatype LoginForm = LoginForm(identifier: Option<string>, password: Option<string>)

  const IdentifierMin: nat := 3
  const LoginPasswordMin: nat := 6

  /** `loginSchema.safeParse(f)`. */
  function LoginIssues(f: LoginForm): (issues: set<Issue>)
    ensures issues == {} <==>
      f.identifier.Some? && Utf16Length(f.identifier.value) >= 3
      && f.password.Some? && Utf16Length(f.password.value) >= 6
    ensures f.identifier.Some? && Utf16Length(f.identifier.value) < 3 ==> Issue(IdentifierField, TooSmall(3)) in issues
    ensures f.password.Some? && Utf16Length(f.password.value) < 6 ==> Issue(PasswordField, TooSmall(6)) in issues
  {
    MinIssues(IdentifierField, f.identifier, IdentifierMin) + MinIssues(PasswordField, f.password, LoginPasswordMin)
  }

  /** There is no upper bound: extending an accepted identifier or password
      keeps the form accepted. */
  lemma LoginAcceptsLonger(f: LoginForm, moreId: string, morePassword: string)
    requires LoginIssues(f) == {}
    ensures LoginIssues(LoginForm(Some(f.identifier.value + moreId), Some(f.password.value + morePassword))) == {}
  {
    Utf16LengthAppend(f.identifier.value, moreId);
    Utf16LengthAppend(f.password.value, morePassword);
  }
}

=== FILE: js_string.dfy ===
/** The few JavaScript string operations the application relies on:
    `String.prototype.trim`, `toLowerCase`, `startsWith`, the UTF-16 `length`
    that Zod's `min` counts, and the truthiness test `!x`. */
module JsString {
  import opened Values

  /** The WhiteSpace and LineTerminator code points of ECMAScript, which is the
      set `trim` removes from both ends. */
  predicate IsWhitespace(c: char) {
    var n := c as int;
    n == 0x09 || n == 0x0A || n == 0x0B || n == 0x0C || n == 0x0D || n == 0x20
    || n == 0xA0 || n == 0x1680 || (0x2000 <= n <= 0x200A) || n == 0x2028
    || n == 0x2029 || n == 0x202F || n == 0x205F || n == 0x3000 || n == 0xFEFF
  }

  predicate AllWhitespace(s: string) {
    forall i :: 0 <= i < |s| ==> IsWhitespace(s[i])
  }

  /** Neither end of `s` is whitespace. */
  predicate IsTrimmed(s: string) {
    s == [] || (!IsWhitespace(s[0]) && !IsWhitespace(s[|s| - 1]))
  }

  /** How many whitespace characters open `s`: all of those are whitespace,
      and the character after them, if any, is not. */
  function LeadingWhitespace(s: string): (n: nat)
    ensures n <= |s|
    ensures forall i :: 0 <= i < n ==> IsWhitespace(s[i])
    ensures n < |s| ==> !IsWhitespace(s[n])
    decreases |s|
  {
    if |s| > 0 && IsWhitespace(s[0]) then
      var m := LeadingWhitespace(s[1..]);
      assert forall i :: 1 <= i < m + 1 ==> s[i] == s[1..][i - 1];
      1 + m
    else 0
  }

  /** How many whitespace characters close `s`, symmetrically. */
  function TrailingWhitespace(s: string): (n: nat)
    ensures n <= |s|
    ensures forall i :: |s| - n <= i < |s| ==> IsWhitespace(s[i])
    ensures n < |s| ==> !IsWhitespace(s[|s| - n - 1])
    decreases |s|
  {
    if |s| > 0 && IsWhitespace(s[|s| - 1]) then
      var m := TrailingWhitespace(s[..|s| - 1]);
      assert forall i :: |s| - 1 - m <= i < |s| - 1 ==> s[i] == s[..|s| - 1][i];
      1 + m
    else 0
  }

  /** `String.prototype.trim`: the part of `s` between its leading and its
      trailing whitespace. */
  function Trim(s: string): (r: string)
    ensures IsTrimmed(r)
    ensures |r| <= |s|
    ensures r == [] <==> AllWhitespace(s)
  {
    var a := LeadingWhitespace(s);
    if a == |s| then []
    else
      var b := TrailingWhitespace(s);
      assert a < |s| - b;
      s[a..|s| - b]
  }

  /** A string that is whitespace, then a trimmed core, then whitespace has
      exactly as much leading whitespace as its first part. */
  lemma LeadingOfPadded(pre: string, core: string, post: string)
    requires AllWhitespace(pre) && core != [] && !IsWhitespace(core[0])
    ensures LeadingWhitespace(pre + core + post) == |pre|
  {
    var s := pre + core + post;
    assert s[|pre|] == core[0];
    assert forall i :: 0 <= i < |pre| ==> s[i] == pre[i];
  }

  lemma TrailingOfPadded(pre: string, core: string, post: string)
    requires AllWhitespace(post) && core != [] && !IsWhitespace(core[|core| - 1])
    ensures TrailingWhitespace(pre + core + post) == |post|
  {
    var s := pre + core + post;
    assert s[|s| - |post| - 1] == core[|core| - 1];
    assert forall i :: |s| - |post| <= i < |s| ==> s[i] == post[i - (|s| - |post|)];
  }

  /** Complete characterisation of `trim`: surrounding a trimmed core with
      whitespace on either side and trimming gives back exactly the core. */
  lemma TrimStrips(pre: string, core: string, post: string)
    requires AllWhitespace(pre) && AllWhitespace(post) && IsTrimmed(core)
    ensures Trim(pre + core + post) == core
  {
    var s := pre + core + post;
    if core == [] {
      assert AllWhitespace(s) by {
        forall i | 0 <= i < |s| ensures IsWhitespace(s[i]) {
          if i < |pre| { assert s[i] == pre[i]; } else { assert s[i] == post[i - |pre|]; }
        }
      }
    } else {
      LeadingOfPadded(pre, core, post);
      TrailingOfPadded(pre, core, post);
      assert s[|pre|..|s| - |post|] == core;
    }
  }

  /** Trimming a string with no whitespace at its ends changes nothing. */
  lemma TrimOfTrimmed(s: string)
    requires IsTrimmed(s)
    ensures Trim(s) == s
  {
    if s != [] {
      assert LeadingWhitespace(s) == 0;
      assert TrailingWhitespace(s) == 0;
      assert s[0..|s|] == s;
    }
  }

  /** `trim` is idempotent. */
  lemma TrimIdempotent(s: string)
    ensures Trim(Trim(s)) == Trim(s)
  {
    TrimOfTrimmed(Trim(s));
  }

  /** Every string is its trimmed form with whitespace before and after it. */
  lemma TrimSplits(s: string) returns (pre: string, post: string)
    ensures AllWhitespace(pre) && AllWhitespace(post)
    ensures s == pre + Trim(s) + post
  {
    var a := LeadingWhitespace(s);
    if a == |s| {
      pre, post := s, [];
      assert s == pre + [] + post;
    } else {
      var b := TrailingWhitespace(s);
      pre, post := s[..a], s[|s| - b..];
      SplitThree(s, a, |s| - b);
    }
  }

  lemma SplitThree(s: string, i: nat, j: nat)
    requires i <= j <= |s|
    ensures s == s[..i] + s[i..j] + s[j..]
  {
  }

  predicate IsAsciiUpper(c: char) {
    'A' <= c <= 'Z'
  }

  /** `toLowerCase` on one character, for the ASCII letters. */
  function LowerChar(c: char): (d: char)
    ensures !IsAsciiUpper(d)
    ensures IsWhitespace(d) <==> IsWhitespace(c)
    ensures !IsAsciiUpper(c) ==> d == c
    ensures IsAsciiUpper(c) ==> 'a' <= d <= 'z' && d as int - 'a' as int == c as int - 'A' as int
  {
    if IsAsciiUpper(c) then (c as int + 32) as char else c
  }

  predicate HasNoUpper(s: string) {
    forall i :: 0 <= i < |s| ==> !IsAsciiUpper(s[i])
  }

  /** `String.prototype.toLowerCase`, restricted to ASCII case mapping. */
  function ToLower(s: string): (r: string)
    ensures |r| == |s|
    ensures forall i :: 0 <= i < |s| ==> r[i] == LowerChar(s[i])
    ensures HasNoUpper(r)
  {
    seq(|s|, i requires 0 <= i < |s| => LowerChar(s[i]))
  }

  /** A string without upper-case letters is its own lower-case form. */
  lemma ToLowerOfLower(s: string)
    requires HasNoUpper(s)
    ensures ToLower(s) == s
  {
    assert forall i :: 0 <= i < |s| ==> ToLower(s)[i] == s[i];
  }

  /** `toLowerCase` is idempotent. */
  lemma ToLowerIdempotent(s: string)
    ensures ToLower(ToLower(s)) == ToLower(s)
  {
    ToLowerOfLower(ToLower(s));
  }

  lemma ToLowerAppend(a: string, b: string)
    ensures ToLower(a + b) == ToLower(a) + ToLower(b)
  {
    var l, r := ToLower(a + b), ToLower(a) + ToLower(b);
    forall i | 0 <= i < |l|
      ensures l[i] == r[i]
    {
      if i < |a| {
        assert (a + b)[i] == a[i];
      } else {
        assert (a + b)[i] == b[i - |a|];
      }
    }
  }

  /** Lower-casing keeps whitespace where it was. */
  lemma ToLowerKeepsWhitespace(s: string)
    ensures AllWhitespace(s) ==> AllWhitespace(ToLower(s))
    ensures IsTrimmed(s) ==> IsTrimmed(ToLower(s))
  {
  }

  lemma ToLowerAppend3(a: string, b: string, c: string)
    ensures ToLower(a + b + c) == ToLower(a) + ToLower(b) + ToLower(c)
  {
    ToLowerAppend(a + b, c);
    ToLowerAppend(a, b);
  }

  /** Lower-casing and trimming commute, so the order in which the email
      setters run does not matter. */
  lemma TrimToLowerCommute(s: string)
    ensures ToLower(Trim(s)) == Trim(ToLower(s))
  {
    var pre, post := TrimSplits(s);
    var core := Trim(s);
    ToLowerAppend3(pre, core, post);
    ToLowerKeepsWhitespace(pre);
    ToLowerKeepsWhitespace(core);
    ToLowerKeepsWhitespace(post);
    TrimStrips(ToLower(pre), ToLower(core), ToLower(post));
  }

  /** The `length` JavaScript reports: UTF-16 code units, so a code point
      outside the Basic Multilingual Plane counts twice. */
  function Utf16Length(s: string): (n: nat)
    ensures |s| <= n <= 2 * |s|
    ensures (forall i :: 0 <= i < |s| ==> s[i] as int <= 0xFFFF) ==> n == |s|
    ensures (forall i :: 0 <= i < |s| ==> s[i] as int > 0xFFFF) ==> n == 2 * |s|
  {
    if s == [] then 0 else (if s[0] as int >= 0x10000 then 2 else 1) + Utf16Length(s[1..])
  }

  /** Length is additive, so appending characters never shortens a string. */
  lemma {:induction false} Utf16LengthAppend(a: string, b: string)
    ensures Utf16Length(a + b) == Utf16Length(a) + Utf16Length(b)
    decreases |a|
  {
    if a == [] {
      assert a + b == b;
    } else {
      assert (a + b)[1..] == a[1..] + b;
      Utf16LengthAppend(a[1..], b);
    }
  }

  /** `s.startsWith(prefix)` (the prefixes used are ASCII, so code points and
      code units agree). */
  predicate StartsWith(s: string, prefix: string) {
    |prefix| <= |s| && s[..|prefix|] == prefix
  }

  /** JavaScript truthiness of a possibly absent string: present and non-empty. */
  predicate Truthy(v: Option<string>) {
    v.Some? && v.value != []
  }
}

=== FILE: middleware.dfy ===
/** The route guard: next-auth's `withAuth` wrapper around a custom role
    check, applied only to the paths the `config.matcher` selects. */
module Middleware {
  import opened Values
  import opened JsString

  /** The decoded session token; only its `role` claim drives decisions. */
  datatype Token = Token(id: string, name: string, email: string, role: string)

  /** Where a redirect goes: the sign-in page chosen by next-auth (its URL is
      the library's default), `/unauthorized`, or the home page `/`. */
  datatype Target = SignIn | Unauthorized | Home

  datatype Decision = Next | Redirect(target: Target)

  /** `token?.role === role`: false when there is no token. */
  predicate HasRole(token: Option<Token>, role: string) {
    token.Some? && token.value.role == role
  }

  /** The custom `middleware` function: three prefix checks in order, then
      pass through. */
  function RoleGate(path: string, token: Option<Token>): (d: Decision)
    ensures d != Redirect(SignIn)
    ensures d == Redirect(Unauthorized) <==>
      (StartsWith(path, "/owner") && !HasRole(token, "owner"))
      || (StartsWith(path, "/tenant") && !HasRole(token, "tenant"))
    ensures d == Redirect(Home) <==> StartsWith(path, "/auth/sign-in") && token.Some?
  {
    SignInExcludesRoles(path);
    if StartsWith(path, "/owner") && !HasRole(token, "owner") then Redirect(Unauthorized)
    else if StartsWith(path, "/tenant") && !HasRole(token, "tenant") then Redirect(Unauthorized)
    else if StartsWith(path, "/auth/sign-in") && token.Some? then Redirect(Home)
    else Next
  }

  /** A path under the sign-in page starts with neither role prefix. */
  lemma SignInExcludesRoles(path: string)
    ensures StartsWith(path, "/auth/sign-in") ==> !StartsWith(path, "/owner") && !StartsWith(path, "/tenant")
  {
    if StartsWith(path, "/auth/sign-in") {
      PrefixesDiffer(path, "/auth/sign-in", "/owner", 1);
      PrefixesDiffer(path, "/auth/sign-in", "/tenant", 1);
    }
  }

  /** One matcher entry `base/:path*`: the base itself or any path below it. */
  predicate MatchesPattern(path: string, base: string) {
    path == base || StartsWith(path, base + "/")
  }

  /** The `config.matcher` list. */
  predicate Matched(path: string) {
    MatchesPattern(path, "/owner") || MatchesPattern(path, "/tenant") || MatchesPattern(path, "/dashboard")
  }

  /** The `authorized` callback: `!!token`. */
  predicate Authorized(token: Option<Token>) {
    token.Some?
  }

  /** The whole pipeline for one request. Outside the matcher nothing runs;
      inside it, a request without a token is sent to sign-in before the
      custom function sees it; a request carrying a token never reaches the
      custom function's sign-in branch, and is never sent to `/unauthorized`
      without a token. */
  function Guard(path: string, token: Option<Token>): (d: Decision)
    ensures !Matched(path) ==> d == Next
    ensures Matched(path) && token.None? ==> d == Redirect(SignIn)
    ensures d != Redirect(Home)
    ensures d == Redirect(SignIn) <==> Matched(path) && token.None?
  {
    if !Matched(path) then Next
    else if !Authorized(token) then Redirect(SignIn)
    else
      PatternPrefixes(path);
      RoleGate(path, token)
  }

  /** Facts about the three matcher bases: each matched path starts with its
      base, and no matched path starts with another base or with the sign-in page. */
  lemma PatternPrefixes(path: string)
    ensures MatchesPattern(path, "/owner") ==> StartsWith(path, "/owner") && !StartsWith(path, "/tenant") && !StartsWith(path, "/auth/sign-in")
    ensures MatchesPattern(path, "/tenant") ==> StartsWith(path, "/tenant") && !StartsWith(path, "/owner") && !StartsWith(path, "/auth/sign-in")
    ensures MatchesPattern(path, "/dashboard") ==> !StartsWith(path, "/owner") && !StartsWith(path, "/tenant") && !StartsWith(path, "/auth/sign-in")
  {
    if MatchesPattern(path, "/owner") {
      assert StartsWith(path, "/owner");
      PrefixesDiffer(path, "/owner", "/tenant", 1);
      PrefixesDiffer(path, "/owner", "/auth/sign-in", 1);
    }
    if MatchesPattern(path, "/tenant") {
      assert StartsWith(path, "/tenant");
      PrefixesDiffer(path, "/tenant", "/owner", 1);
      PrefixesDiffer(path, "/tenant", "/auth/sign-in", 1);
    }
    if MatchesPattern(path, "/dashboard") {
      assert StartsWith(path, "/dashboard");
      PrefixesDiffer(path, "/dashboard", "/owner", 1);
      PrefixesDiffer(path, "/dashboard", "/tenant", 1);
      PrefixesDiffer(path, "/dashboard", "/auth/sign-in", 1);
    }
  }

  /** Two prefixes that disagree at some position cannot both start `path`. */
  lemma PrefixesDiffer(path: string, p: string, q: string, i: nat)
    requires StartsWith(path, p)
    requires i < |p| && i < |q| && p[i] != q[i]
    ensures !StartsWith(path, q)
  {
    assert path[i] == p[i];
  }

  /** The protected areas as a declarative policy: the role an area demands,
      or any signed-in user for the dashboard. */
  datatype Area = OwnerArea | TenantArea | DashboardArea | PublicArea

  function AreaOf(path: string): Area {
    if MatchesPattern(path, "/owner") then OwnerArea
    else if MatchesPattern(path, "/tenant") then TenantArea
    else if MatchesPattern(path, "/dashboard") then DashboardArea
    else PublicArea
  }

  /** Whether a signed-in user with role `role` may enter `area`. */
  predicate Admits(area: Area, role: string) {
    match area
    case OwnerArea => role == "owner"
    case TenantArea => role == "tenant"
    case DashboardArea => true
    case PublicArea => true
  }

  /** The reference decision: public paths pass; protected ones need a token,
      and a token whose role the area admits. */
  function Policy(path: string, token: Option<Token>): Decision {
    var area := AreaOf(path);
    if area == PublicArea then Next
    else if token.None? then Redirect(SignIn)
    else if !Admits(area, token.value.role) then Redirect(Unauthorized)
    else Next
  }

  /** The deployed guard agrees with the declarative policy on every request. */
  lemma GuardFollowsPolicy(path: string, token: Option<Token>)
    ensures Guard(path, token) == Policy(path, token)
  {
    PatternPrefixes(path);
  }

  /** A path outside the matcher is passed through whatever the token. */
  lemma UnmatchedPassesThrough(path: string, token: Option<Token>)
    requires !MatchesPattern(path, "/owner") && !MatchesPattern(path, "/tenant") && !MatchesPattern(path, "/dashboard")
    ensures Guard(path, token) == Next
  {
  }

  /** Inside the owner and tenant areas, a token with the wrong role (or a
      token-less request reaching the custom function) is sent to `/unauthorized`. */
  lemma WrongRoleUnauthorized(path: string, token: Option<Token>)
    ensures StartsWith(path, "/owner") && !HasRole(token, "owner") ==> RoleGate(path, token) == Redirect(Unauthorized)
    ensures StartsWith(path, "/tenant") && !HasRole(token, "tenant") ==> RoleGate(path, token) == Redirect(Unauthorized)
    ensures MatchesPattern(path, "/owner") && token.Some? && token.value.role != "owner" ==> Guard(path, token) == Redirect(Unauthorized)
    ensures MatchesPattern(path, "/tenant") && token.Some? && token.value.role != "tenant" ==> Guard(path, token) == Redirect(Unauthorized)
  {
    PatternPrefixes(path);
  }

  /** An owner in the owner area, a tenant in the tenant area and any
      signed-in user on the dashboard are let through. */
  lemma RightRolePasses(path: string, t: Token)
    ensures MatchesPattern(path, "/owner") && t.role == "owner" ==> Guard(path, Some(t)) == Next
    ensures MatchesPattern(path, "/tenant") && t.role == "tenant" ==> Guard(path, Some(t)) == Next
    ensures MatchesPattern(path, "/dashboard") ==> Guard(path, Some(t)) == Next
  {
    PatternPrefixes(path);
  }

  /** The custom function sends a signed-in user away from every path
      under the sign-in page, but the matcher never routes such a path to
      it: the guard lets it through whatever the token. */
  lemma SignInBranchUnreachable(path: string, token: Option<Token>)
    requires StartsWith(path, "/auth/sign-in")
    ensures token.Some? ==> RoleGate(path, token) == Redirect(Home)
    ensures !Matched(path)
    ensures Guard(path, token) == Next
  {
    if Matched(path) {
      PatternPrefixes(path);
      assert false;
    }
  }

  /** `startsWith("/owner")` alone guards `/ownersX` too; only the matcher
      keeps that path public. */
  lemma OwnersPrefixOnlyExcludedByMatcher(token: Option<Token>)
    ensures !HasRole(token, "owner") ==> RoleGate("/ownersX", token) == Redirect(Unauthorized)
    ensures !Matched("/ownersX")
    ensures Guard("/ownersX", token) == Next
  {
    assert StartsWith("/ownersX", "/owner");
    assert !StartsWith("/ownersX", "/owner/") by { assert "/ownersX"[6] == 's'; }
    assert !StartsWith("/ownersX", "/tenant/") by { assert "/ownersX"[1] == 'o'; }
    assert !StartsWith("/ownersX", "/dashboard/") by { assert "/ownersX"[1] == 'o'; }
  }
}

=== FILE: property_model.dfy ===
/** The `Property` Mongoose model: the status enum with its default and the
    schema's required, trim and optional paths. */
module PropertyModel {
  import opened Values
  import opened JsString

  datatype PropertyStatus = Available | Rented | Maintenance

  /** The string value of each `PropertyStatus` member. */
  function StatusValue(st: PropertyStatus): string {
    match st
    case Available => "available"
    case Rented => "rented"
    case Maintenance => "maintenance"
  }

  /** The `enum` validator on `status`. */
  function ParseStatus(s: string): (r: Option<PropertyStatus>)
    ensures r.Some? <==> s == "available" || s == "rented" || s == "maintenance"
    ensures r.Some? ==> StatusValue(r.value) == s
  {
    if s == "available" then Some(Available)
    else if s == "rented" then Some(Rented)
    else if s == "maintenance" then Some(Maintenance)
    else None
  }

  /** The document given to `new Property(...)`; every path may be absent.
      `rent` is a JavaScript number, kept here as an opaque integer. */
  datatype PropertyInput = PropertyInput(
    title: Option<string>,
    description: Option<string>,
    address: Option<string>,
    city: Option<string>,
    state: Option<string>,
    country: Option<string>,
    rent: Option<int>,
    images: Option<seq<string>>,
    owner: Option<ObjectId>,
    tenant: Option<ObjectId>,
    status: Option<string>)

  datatype PropertyRecord = PropertyRecord(
    title: string,
    description: string,
    address: string,
    city: string,
    state: string,
    country: string,
    rent: int,
    images: seq<string>,
    owner: ObjectId,
    tenant: Option<ObjectId>,
    status: PropertyStatus)

  datatype PropertyPath =
    TitlePath | DescriptionPath | AddressPath | CityPath | StatePath
    | CountryPath | RentPath | OwnerPath | StatusPath

  /** Mongoose's `required` check on a string path: present and non-empty. */
  predicate RequiredString(v: Option<string>) {
    v.Some? && v.value != []
  }

  /** Whether the validator of path `p` rejects the document, after the
      `trim` setter on `title` ran. A required number accepts every value,
      zero included; only its absence fails. */
  predicate Fails(input: PropertyInput, p: PropertyPath) {
    match p
    case TitlePath => input.title.None? || Trim(input.title.value) == []
    case DescriptionPath => !RequiredString(input.description)
    case AddressPath => !RequiredString(input.address)
    case CityPath => !RequiredString(input.city)
    case StatePath => !RequiredString(input.state)
    case CountryPath => !RequiredString(input.country)
    case RentPath => input.rent.None?
    case OwnerPath => input.owner.None?
    case StatusPath => input.status.Some? && ParseStatus(input.status.value).None?
  }

  function Violations(input: PropertyInput): set<PropertyPath> {
    set p | p in {TitlePath, DescriptionPath, AddressPath, CityPath, StatePath,
                  CountryPath, RentPath, OwnerPath, StatusPath} && Fails(input, p)
  }

  /** The rules on the raw input: every required path present (the title
      not blank, the other strings not empty), and a given status one of
      the enum members. Nothing is asked of `images` or `tenant`. */
  predicate Acceptable(input: PropertyInput) {
    && input.title.Some? && !AllWhitespace(input.title.value)
    && RequiredString(input.description)
    && RequiredString(input.address)
    && RequiredString(input.city)
    && RequiredString(input.state)
    && RequiredString(input.country)
    && input.rent.Some?
    && input.owner.Some?
    && (input.status.None? || input.status.value in {"available", "rented", "maintenance"})
  }

  lemma ViolationsExact(input: PropertyInput)
    ensures Violations(input) == {} <==> Acceptable(input)
    ensures input.title.None? || AllWhitespace(input.title.value) ==> TitlePath in Violations(input)
    ensures input.rent.None? ==> RentPath in Violations(input)
    ensures input.owner.None? ==> OwnerPath in Violations(input)
  {
    if Acceptable(input) {
      forall p ensures p !in Violations(input) {
        assert !Fails(input, p);
      }
    }
    if input.title.None? || AllWhitespace(input.title.value) {
      assert Fails(input, TitlePath);
      assert TitlePath in Violations(input);
    } else if !RequiredString(input.description) {
      assert Fails(input, DescriptionPath);
      assert DescriptionPath in Violations(input);
    } else if !RequiredString(input.address) {
      assert Fails(input, AddressPath);
      assert AddressPath in Violations(input);
    } else if !RequiredString(input.city) {
      assert Fails(input, CityPath);
      assert CityPath in Violations(input);
    } else if !RequiredString(input.state) {
      assert Fails(input, StatePath);
      assert StatePath in Violations(input);
    } else if !RequiredString(input.country) {
      assert Fails(input, CountryPath);
      assert CountryPath in Violations(input);
    } else if input.rent.None? {
      assert Fails(input, RentPath);
      assert RentPath in Violations(input);
    } else if input.owner.None? {
      assert Fails(input, OwnerPath);
      assert OwnerPath in Violations(input);
    } else if !Acceptable(input) {
      assert Fails(input, StatusPath);
      assert StatusPath in Violations(input);
    }
  }

  /** What every saved property satisfies. */
  predicate WellFormed(p: PropertyRecord) {
    && p.title != [] && IsTrimmed(p.title)
    && p.description != [] && p.address != [] && p.city != []
    && p.state != [] && p.country != []
  }

  /** Setters, defaults and validation of a property document. On success
      the title is trimmed, the other strings, rent, owner, tenant and given
      images are kept as given, images default to none and status to
      `available`. On failure the error names every failing path. */
  function CreateProperty(input: PropertyInput): (r: Result<PropertyRecord, set<PropertyPath>>)
    ensures r.Ok? <==> Acceptable(input)
    ensures r.Err? ==> r.error != {} && r.error == Violations(input)
    ensures r.Err? && (input.title.None? || AllWhitespace(input.title.value)) ==> TitlePath in r.error
    ensures r.Ok? ==> WellFormed(r.value)
    ensures r.Ok? ==>
      && r.value.title == Trim(input.title.value)
      && r.value.description == input.description.value
      && r.value.address == input.address.value
      && r.value.city == input.city.value
      && r.value.state == input.state.value
      && r.value.country == input.country.value
      && r.value.rent == input.rent.value
      && r.value.owner == input.owner.value
      && r.value.tenant == input.tenant
      && (input.status.None? ==> r.value.status == Available)
      && (input.status.Some? ==> StatusValue(r.value.status) == input.status.value)
      && (input.images.None? ==> r.value.images == [])
      && (input.images.Some? ==> r.value.images == input.images.value)
  {
    var errors := Violations(input);
    ViolationsExact(input);
    if errors != {} then Err(errors)
    else
      var title := Trim(input.title.value);
      assert title != [];
      Ok(PropertyRecord(
        title, input.description.value, input.address.value, input.city.value,
        input.state.value, input.country.value, input.rent.value,
        if input.images.Some? then input.images.value else [],
        input.owner.value, input.tenant,
        if input.status.Some? then ParseStatus(input.status.value).value else Available))
  }

  /** Whatever is stored, its status is one of the three enum values. */
  lemma StatusAlwaysMember(input: PropertyInput)
    requires CreateProperty(input).Ok?
    ensures StatusValue(CreateProperty(input).value.status) in {"available", "rented", "maintenance"}
    ensures input.status.None? ==> CreateProperty(input).value.status == Available
  {
  }

  /** Acceptance never depends on the optional paths: any tenant and any
      images, present or absent, give the same verdict. */
  lemma OptionalPathsIrrelevant(input: PropertyInput, tenant: Option<ObjectId>, images: Option<seq<string>>)
    ensures CreateProperty(input.(tenant := tenant, images := images)).Ok? <==> CreateProperty(input).Ok?
  {
  }

  /** A missing required path is always rejected. */
  lemma MissingRequiredRejected(input: PropertyInput)
    requires input.title.None? || input.description.None? || input.address.None? || input.city.None?
          || input.state.None? || input.country.None? || input.rent.None? || input.owner.None?
    ensures CreateProperty(input).Err?
  {
  }

  function AsInput(p: PropertyRecord): PropertyInput {
    PropertyInput(Some(p.title), Some(p.description), Some(p.address), Some(p.city),
                  Some(p.state), Some(p.country), Some(p.rent), Some(p.images),
                  Some(p.owner), p.tenant, Some(StatusValue(p.status)))
  }

  /** A well-formed property passes through the setters and validators unchanged. */
  lemma NormalisationIdempotent(p: PropertyRecord)
    requires WellFormed(p)
    ensures CreateProperty(AsInput(p)) == Ok(p)
  {
    TrimOfTrimmed(p.title);
    assert !AllWhitespace(p.title);
  }
}

=== FILE: signup_flow.dfy ===
/** How the client-side sign-up schema and the server-side route fit
    together: the form posts its fields to `/api/auth/signup`. */
module SignupFlow {
  import opened Values
  import opened JsString
  import opened UserModel
  import opened AuthSchemas
  import opened SignupRoute

  /** The body the sign-up page posts (`confirmPassword` is ignored by the route). */
  function BodyOf(f: SignUpForm): Body {
    Fields(f.name, f.email, f.password, f.role)
  }

  /** A form the schema accepts always gets past the route's required-fields
      check (given that the empty string is not an email), and its role
      always satisfies the schema's enum; so the route answers 200, a
      duplicate 400, or a 500 from the database or a blank name or email. */
  lemma AcceptedFormPassesFieldCheck(store: Store, f: SignUpForm, db: Db, isEmail: string -> bool,
                                     hash: (string, nat) -> string)
    requires SignUpIssues(f, isEmail) == {}
    requires !isEmail([])
    ensures Post(store, BodyOf(f), db, hash).response.message != MissingFieldsMessage
    ensures Post(store, BodyOf(f), db, hash).response.status == 500 ==>
      db == Unreachable || AllWhitespace(f.name.value) || AllWhitespace(f.email.value)
      || hash(f.password.value, SaltRounds) == []
  {
    assert f.name.value != [];
    assert f.email.value != [];
    assert f.password.value != [];
    var o := Post(store, BodyOf(f), db, hash);
    if o.response.status == 500 && db == Connected && FindByEmail(store, f.email.value).None? {
      var input := NewUserInput(f.name.value, f.email.value, hash(f.password.value, SaltRounds), f.role.value);
      assert CreateUser(input).Err?;
    }
  }

  /** The two layers disagree on blank names: two spaces meet the schema's
      two-character minimum, but the `trim` setter empties the name and the
      schema's `required` refuses it, so the route answers 500. */
  lemma BlankNameAcceptedByFormRefusedByServer(store: Store, email: string, isEmail: string -> bool,
                                               hash: (string, nat) -> string)
    requires isEmail(email) && email != []
    requires FindByEmail(store, email).None?
    ensures var f := SignUpForm(Some("  "), Some(email), Some("secret1"), Some("secret1"), Some("tenant"));
      SignUpIssues(f, isEmail) == {}
      && Post(store, BodyOf(f), Connected, hash) == Outcome(ServerError(), store)
  {
    BlankNameFormValid(email, isEmail);
    assert AllWhitespace("  ");
    BlankNameIsServerError(store, "  ", email, "secret1", "tenant", hash);
  }

  lemma BlankNameFormValid(email: string, isEmail: string -> bool)
    requires isEmail(email)
    ensures ValidSignUp(SignUpForm(Some("  "), Some(email), Some("secret1"), Some("secret1"), Some("tenant")), isEmail)
  {
    assert Utf16Length("  ") == 2;
    assert Utf16Length("secret1") == 7;
  }
}

=== FILE: signup_route.dfy ===
/** `POST /api/auth/signup` as a transition on the users collection: the
    request body, whether the database can be reached, and the password
    hash function are inputs; the response and the new collection are the
    outputs. */
module SignupRoute {
  import opened Values
  import opened JsString
  import opened UserModel

  /** The request body as `req.json()` sees it: unreadable, or an object
      whose four fields may each be absent. Other fields are ignored. */
  datatype Body =
    | Malformed
    | Fields(name: Option<string>, email: Option<string>, password: Option<string>, role: Option<string>)

  /** Whether `connectDB()` succeeds or throws. */
  datatype Db = Connected | Unreachable

  datatype Response = Response(status: nat, message: string, user: Option<UserRecord>)

  datatype Outcome = Outcome(response: Response, store: Store)

  /** The bcrypt cost factor the route passes to `hash`. */
  const SaltRounds: nat := 10

  const MissingFieldsMessage: string := "All fields are required"
  const UserExistsMessage: string := "User already exists"
  const RegisteredMessage: string := "User registered successfully"
  const InternalErrorMessage: string := "Internal server error"

  /** The response of the catch-all handler. */
  function ServerError(): Response {
    Response(500, InternalErrorMessage, None)
  }

  /** The document the route hands to `User.create`. */
  function NewUserInput(name: string, email: string, hashed: string, role: string): UserInput {
    UserInput(Some(name), Some(email), Some(hashed), Some(role), None, None, None)
  }

  /** The handler. Every response is 200, 400 or 500; only a 200 changes the
      collection, and then by exactly one record; the collection's
      invariant (each user under its normalised email, well formed, so
      emails are unique) is kept. */
  function Post(store: Store, body: Body, db: Db, hash: (string, nat) -> string): (o: Outcome)
    ensures o.response.status in {200, 400, 500}
    ensures o.response.status != 200 ==> o.store == store && o.response.user.None?
    ensures o.response.status == 200 ==>
      && o.response.user.Some?
      && o.response.user.value.email !in store
      && o.store == store[o.response.user.value.email := o.response.user.value]
      && |o.store| == |store| + 1
    ensures StoreInvariant(store) ==> StoreInvariant(o.store)
    ensures body.Malformed? ==> o == Outcome(ServerError(), store)
    ensures && body.Fields? && Truthy(body.name) && Truthy(body.email) && Truthy(body.password) && Truthy(body.role)
            && db == Unreachable
            ==> o == Outcome(ServerError(), store)
  {
    match body
    case Malformed => Outcome(ServerError(), store)
    case Fields(name, email, password, role) =>
      if !Truthy(name) || !Truthy(email) || !Truthy(password) || !Truthy(role) then
        Outcome(Response(400, MissingFieldsMessage, None), store)
      else if db == Unreachable then
        Outcome(ServerError(), store)
      else if FindByEmail(store, email.value).Some? then
        Outcome(Response(400, UserExistsMessage, None), store)
      else
        var input := NewUserInput(name.value, email.value, hash(password.value, SaltRounds), role.value);
        match InsertUser(store, input)
        case Ok(ins) => Outcome(Response(200, RegisteredMessage, Some(ins.user)), ins.store)
        case Err(_) => Outcome(ServerError(), store)
  }

  /** A body lacking any of the four fields, or carrying one as an empty
      string, gets 400 "All fields are required" and changes nothing. */
  lemma MissingFieldRejected(store: Store, name: Option<string>, email: Option<string>,
                             password: Option<string>, role: Option<string>, db: Db, hash: (string, nat) -> string)
    requires !Truthy(name) || !Truthy(email) || !Truthy(password) || !Truthy(role)
    ensures Post(store, Fields(name, email, password, role), db, hash)
         == Outcome(Response(400, MissingFieldsMessage, None), store)
  {
  }

  /** When a user already holds the (normalised) email and the database is
      reachable, the answer is 400 "User already exists" and nothing
      changes; the connection is tried first, so an unreachable database
      answers 500 instead. */
  lemma DuplicateRejected(store: Store, name: string, email: string, password: string, role: string,
                          hash: (string, nat) -> string)
    requires StoreInvariant(store)
    requires name != [] && email != [] && password != [] && role != []
    requires exists u :: u in store.Values && u.email == NormalizeEmail(email)
    ensures Post(store, Fields(Some(name), Some(email), Some(password), Some(role)), Connected, hash)
         == Outcome(Response(400, UserExistsMessage, None), store)
    ensures Post(store, Fields(Some(name), Some(email), Some(password), Some(role)), Unreachable, hash)
         == Outcome(ServerError(), store)
  {
    FindByEmailScans(store, email);
  }

  /** A 200 comes only from a complete body on a reachable database, and
      the user it returns is the record the schema built from the body with
      the password replaced by its hash. */
  lemma SuccessShape(store: Store, body: Body, db: Db, hash: (string, nat) -> string)
    ensures Post(store, body, db, hash).response.status == 200 ==>
      && body.Fields? && Truthy(body.name) && Truthy(body.email) && Truthy(body.password) && Truthy(body.role)
      && db == Connected && NormalizeEmail(body.email.value) !in store
      && var input := NewUserInput(body.name.value, body.email.value, hash(body.password.value, SaltRounds), body.role.value);
         && CreateUser(input).Ok?
         && Post(store, body, db, hash).response.user == Some(CreateUser(input).value)
  {
  }

  /** The exact condition for a successful signup. */
  lemma SignupSucceeds(store: Store, name: string, email: string, password: string, role: string,
                       db: Db, hash: (string, nat) -> string)
    ensures Post(store, Fields(Some(name), Some(email), Some(password), Some(role)), db, hash).response.status == 200
      <==>
        && password != [] && db == Connected
        && !AllWhitespace(name) && !AllWhitespace(email)
        && NormalizeEmail(email) !in store
        && hash(password, SaltRounds) != []
        && (role == "owner" || role == "tenant")
  {
    var body := Fields(Some(name), Some(email), Some(password), Some(role));
    var input := NewUserInput(name, email, hash(password, SaltRounds), role);
    if Post(store, body, db, hash).response.status == 200 {
      SuccessShape(store, body, db, hash);
    } else if name != [] && email != [] && password != [] && role != [] && db == Connected
              && NormalizeEmail(email) !in store {
      assert InsertUser(store, input).Err?;
    }
  }

  /** What a successful signup stores: the trimmed name, the normalised
      email, the given role, and the hash of the password at cost 10 in
      place of the password, under the normalised email. */
  lemma SignupStores(store: Store, name: string, email: string, password: string, role: string,
                     db: Db, hash: (string, nat) -> string)
    ensures var o := Post(store, Fields(Some(name), Some(email), Some(password), Some(role)), db, hash);
      o.response.status == 200 ==>
      && o.response.message == RegisteredMessage
      && o.response.user.value.name == Trim(name)
      && o.response.user.value.email == NormalizeEmail(email)
      && RoleValue(o.response.user.value.role) == role
      && o.response.user.value.password == hash(password, SaltRounds)
      && NormalizeEmail(email) in o.store
      && o.store[NormalizeEmail(email)] == o.response.user.value
  {
    SuccessShape(store, Fields(Some(name), Some(email), Some(password), Some(role)), db, hash);
  }

  /** A non-empty role outside the enum passes the route's own check but is
      refused by the schema: 500 "Internal server error", nothing changes. */
  lemma BadRoleIsServerError(store: Store, name: string, email: string, password: string, role: string,
                             hash: (string, nat) -> string)
    requires name != [] && email != [] && password != [] && role != []
    requires role != "owner" && role != "tenant"
    requires FindByEmail(store, email).None?
    ensures Post(store, Fields(Some(name), Some(email), Some(password), Some(role)), Connected, hash)
         == Outcome(ServerError(), store)
  {
    assert !RoleValid(NewUserInput(name, email, hash(password, SaltRounds), role));
  }

  /** A name made only of whitespace passes the route's own check, is
      emptied by the `trim` setter and refused by `required`: 500. */
  lemma BlankNameIsServerError(store: Store, name: string, email: string, password: string, role: string,
                               hash: (string, nat) -> string)
    requires name != [] && email != [] && password != [] && role != []
    requires AllWhitespace(name)
    requires FindByEmail(store, email).None?
    ensures Post(store, Fields(Some(name), Some(email), Some(password), Some(role)), Connected, hash)
         == Outcome(ServerError(), store)
  {
    assert !NameValid(NewUserInput(name, email, hash(password, SaltRounds), role));
  }

  /** With a hash that never returns its input, the stored password is never
      the plaintext. */
  lemma PasswordNeverStoredPlain(store: Store, body: Body, db: Db, hash: (string, nat) -> string)
    requires forall p: string :: hash(p, SaltRounds) != p
    ensures var o := Post(store, body, db, hash);
      o.response.status == 200 ==> o.response.user.value.password != body.password.value
  {
    if Post(store, body, db, hash).response.status == 200 {
      SuccessShape(store, body, db, hash);
      assert hash(body.password.value, SaltRounds) != body.password.value;
    }
  }

  /** Signing up again with the same email (in any letter case or padding)
      after a success is refused as a duplicate: there is never a second
      record for one email. */
  lemma SecondSignupRejected(store: Store, first: Body, name: string, email: string, password: string, role: string,
                              db: Db, hash: (string, nat) -> string)
    requires name != [] && email != [] && password != [] && role != []
    ensures var o := Post(store, first, db, hash);
      o.response.status == 200 && NormalizeEmail(email) == NormalizeEmail(first.email.value) ==>
      Post(o.store, Fields(Some(name), Some(email), Some(password), Some(role)), Connected, hash)
        == Outcome(Response(400, UserExistsMessage, None), o.store)
  {
    SuccessShape(store, first, db, hash);
    var o := Post(store, first, db, hash);
    if o.response.status == 200 && NormalizeEmail(email) == NormalizeEmail(first.email.value) {
      assert NormalizeEmail(first.email.value) in o.store;
      assert FindByEmail(o.store, email).Some?;
    }
  }

  /** A concrete signup: "Jo", "jo@x.com", "secret1", "tenant" on a store
      without that email is accepted as a tenant. */
  lemma JoSignsUp(store: Store, hash: (string, nat) -> string)
    requires "jo@x.com" !in store
    requires hash("secret1", SaltRounds) != []
    ensures var o := Post(store, Fields(Some("Jo"), Some("jo@x.com"), Some("secret1"), Some("tenant")), Connected, hash);
      && o.response.status == 200
      && "jo@x.com" in o.store && o.store["jo@x.com"].role == Tenant
  {
    JoNormalised();
    SignupSucceeds(store, "Jo", "jo@x.com", "secret1", "tenant", Connected, hash);
    SignupStores(store, "Jo", "jo@x.com", "secret1", "tenant", Connected, hash);
    assert Post(store, Fields(Some("Jo"), Some("jo@x.com"), Some("secret1"), Some("tenant")), Connected, hash).response.status == 200;
    assert RoleValue(Owner) != "tenant" by { assert "owner"[0] != "tenant"[0]; }
  }

  lemma JoNormalised()
    ensures !AllWhitespace("Jo") && !AllWhitespace("jo@x.com")
    ensures NormalizeEmail("jo@x.com") == "jo@x.com"
  {
    assert !IsWhitespace("Jo"[0]);
    assert !IsWhitespace("jo@x.com"[0]);
    assert IsTrimmed("jo@x.com");
    assert HasNoUpper("jo@x.com");
    TrimOfTrimmed("jo@x.com");
    ToLowerOfLower("jo@x.com");
  }
}

=== FILE: user_model.dfy ===
/** The `User` Mongoose model: the role enum, the schema's setters (trim,
    lowercase), its validators (required, enum) and defaults, and the
    collection as a store keyed by the normalised email, which is how the
    unique index on `email` is kept. */
module UserModel {
  import opened Values
  import opened JsString

  datatype Role = Owner | Tenant

  /** The string value of each `UserRole` member. */
  function RoleValue(r: Role): string {
    match r
    case Owner => "owner"
    case Tenant => "tenant"
  }

  /** The `enum` validator on `role`: only the two member values are accepted. */
  function ParseRole(s: string): (r: Option<Role>)
    ensures r.Some? <==> s == "owner" || s == "tenant"
    ensures r.Some? ==> RoleValue(r.value) == s
  {
    if s == "owner" then Some(Owner) else if s == "tenant" then Some(Tenant) else None
  }

  lemma ParseRoleValue(r: Role)
    ensures ParseRole(RoleValue(r)) == Some(r)
  {
  }

  /** The document given to `User.create`: every path may be absent. */
  datatype UserInput = UserInput(
    name: Option<string>,
    email: Option<string>,
    password: Option<string>,
    role: Option<string>,
    phone: Option<string>,
    properties: Option<seq<ObjectId>>,
    rentedProperties: Option<seq<ObjectId>>)

  /** A saved user document (identifier and timestamps are not modelled). */
  datatype UserRecord = UserRecord(
    name: string,
    email: string,
    password: string,
    role: Role,
    phone: Option<string>,
    properties: seq<ObjectId>,
    rentedProperties: seq<ObjectId>)

  /** The schema paths whose validators can fail. */
  datatype UserPath = NamePath | EmailPath | PasswordPath | RolePath

  /** The `trim` and `lowercase` setters on `email`, also applied by Mongoose
      to an `email` query condition. */
  function NormalizeEmail(s: string): (r: string)
    ensures IsTrimmed(r) && HasNoUpper(r)
    ensures r == [] <==> AllWhitespace(s)
  {
    ToLower(Trim(s))
  }

  /** Normalising twice is the same as normalising once. */
  lemma NormalizeEmailIdempotent(s: string)
    ensures NormalizeEmail(NormalizeEmail(s)) == NormalizeEmail(s)
  {
    var e := NormalizeEmail(s);
    TrimOfTrimmed(e);
    ToLowerOfLower(e);
  }

  /** What every saved user satisfies: the required strings are present
      after their setters ran, the setters have nothing left to do, and the
      role is one of the enum members (by its type). */
  predicate WellFormed(u: UserRecord) {
    && u.name != [] && IsTrimmed(u.name)
    && u.email != [] && IsTrimmed(u.email) && HasNoUpper(u.email)
    && u.password != []
    && (u.phone.Some? ==> IsTrimmed(u.phone.value))
  }

  /** Whether the validator of path `p` rejects the document, after the
      setters ran and the default role was filled in. A required string
      fails when absent or empty. */
  predicate Fails(input: UserInput, p: UserPath) {
    match p
    case NamePath => input.name.None? || Trim(input.name.value) == []
    case EmailPath => input.email.None? || NormalizeEmail(input.email.value) == []
    case PasswordPath => input.password.None? || input.password.value == []
    case RolePath => input.role.Some? && ParseRole(input.role.value).None?
  }

  /** The failing validators of a document. */
  function Violations(input: UserInput): set<UserPath> {
    set p | p in {NamePath, EmailPath, PasswordPath, RolePath} && Fails(input, p)
  }

  /** The validity of each path stated on the raw input, before setters. */
  predicate NameValid(input: UserInput) {
    input.name.Some? && !AllWhitespace(input.name.value)
  }

  predicate EmailValid(input: UserInput) {
    input.email.Some? && !AllWhitespace(input.email.value)
  }

  predicate PasswordValid(input: UserInput) {
    input.password.Some? && input.password.value != []
  }

  predicate RoleValid(input: UserInput) {
    input.role.None? || input.role.value == "owner" || input.role.value == "tenant"
  }

  /** A validator fails exactly when the raw value breaks its rule. */
  lemma ViolationsExact(input: UserInput)
    ensures NamePath in Violations(input) <==> !NameValid(input)
    ensures EmailPath in Violations(input) <==> !EmailValid(input)
    ensures PasswordPath in Violations(input) <==> !PasswordValid(input)
    ensures RolePath in Violations(input) <==> !RoleValid(input)
    ensures Violations(input) == {} <==>
      NameValid(input) && EmailValid(input) && PasswordValid(input) && RoleValid(input)
  {
    if NameValid(input) && EmailValid(input) && PasswordValid(input) && RoleValid(input) {
      forall p ensures p !in Violations(input) {
        assert !Fails(input, p);
      }
    }
  }

  function OrEmpty<T>(v: Option<seq<T>>): seq<T> {
    if v.Some? then v.value else []
  }

  /** Casting, setters, defaults and validation of `new User(input)`. On
      success the record holds the trimmed name, the trimmed lower-cased
      email, the password untouched, the given role or `tenant` when none
      was given, and the trimmed phone. On failure the error names exactly
      the paths whose validator rejected the document. */
  function CreateUser(input: UserInput): (r: Result<UserRecord, set<UserPath>>)
    ensures r.Ok? <==> NameValid(input) && EmailValid(input) && PasswordValid(input) && RoleValid(input)
    ensures r.Ok? ==> WellFormed(r.value)
    ensures r.Ok? ==>
      && r.value.name == Trim(input.name.value)
      && r.value.email == NormalizeEmail(input.email.value)
      && r.value.password == input.password.value
      && (input.role.None? ==> r.value.role == Tenant)
      && (input.role.Some? ==> RoleValue(r.value.role) == input.role.value)
      && (input.phone.None? ==> r.value.phone.None?)
      && (input.phone.Some? ==> r.value.phone == Some(Trim(input.phone.value)))
      && r.value.properties == OrEmpty(input.properties)
      && r.value.rentedProperties == OrEmpty(input.rentedProperties)
    ensures r.Err? ==> r.error != {} && r.error == Violations(input)
    ensures r.Err? ==> (NamePath in r.error <==> !NameValid(input))
    ensures r.Err? ==> (EmailPath in r.error <==> !EmailValid(input))
    ensures r.Err? ==> (PasswordPath in r.error <==> !PasswordValid(input))
    ensures r.Err? ==> (RolePath in r.error <==> !RoleValid(input))
  {
    var errors := Violations(input);
    ViolationsExact(input);
    if errors != {} then Err(errors)
    else
      var name := Trim(input.name.value);
      var email := NormalizeEmail(input.email.value);
      var phone := if input.phone.Some? then Some(Trim(input.phone.value)) else None;
      var role := if input.role.Some? then ParseRole(input.role.value).value else Tenant;
      assert name != [] && email != [];
      Ok(UserRecord(name, email, input.password.value, role, phone,
                    OrEmpty(input.properties), OrEmpty(input.rentedProperties)))
  }

  /** The document that saving `u` back would send. */
  function AsInput(u: UserRecord): UserInput {
    UserInput(Some(u.name), Some(u.email), Some(u.password), Some(RoleValue(u.role)),
              u.phone, Some(u.properties), Some(u.rentedProperties))
  }

  /** Normalisation is idempotent: a well-formed record passes through
      the setters and validators unchanged. */
  lemma NormalisationIdempotent(u: UserRecord)
    requires WellFormed(u)
    ensures CreateUser(AsInput(u)) == Ok(u)
  {
    TrimOfTrimmed(u.name);
    TrimOfTrimmed(u.email);
    ToLowerOfLower(u.email);
    if u.phone.Some? {
      TrimOfTrimmed(u.phone.value);
    }
  }

  /** Corollary: re-saving a created record reproduces it. */
  lemma CreateThenResave(input: UserInput)
    ensures CreateUser(input).Ok? ==> CreateUser(AsInput(CreateUser(input).value)) == CreateUser(input)
  {
    if CreateUser(input).Ok? {
      NormalisationIdempotent(CreateUser(input).value);
    }
  }

  /** A missing role defaults to `tenant`. */
  lemma RoleDefaultsToTenant(input: UserInput)
    requires NameValid(input) && EmailValid(input) && PasswordValid(input)
    requires input.role.None?
    ensures CreateUser(input).Ok? && CreateUser(input).value.role == Tenant
  {
  }

  /** The users collection, keyed by the stored (normalised) email. */
  type Store = map<string, UserRecord>

  /** Every record sits under its own email and is well formed. */
  predicate StoreInvariant(s: Store) {
    forall k :: k in s ==> s[k].email == k && WellFormed(s[k])
  }

  /** The unique index: no two stored records share an email. */
  lemma EmailsUnique(s: Store)
    requires StoreInvariant(s)
    ensures forall a, b :: a in s.Values && b in s.Values && a.email == b.email ==> a == b
  {
    forall a, b | a in s.Values && b in s.Values && a.email == b.email
      ensures a == b
    {
      var ka :| ka in s && s[ka] == a;
      var kb :| kb in s && s[kb] == b;
    }
  }

  /** `User.findOne({ email })`: the condition goes through the same setters
      as the stored email, so the lookup is by the normalised email. */
  function FindByEmail(s: Store, email: string): (r: Option<UserRecord>)
    ensures r.Some? ==> r.value in s.Values
    ensures StoreInvariant(s) ==> (r.Some? <==> exists u :: u in s.Values && u.email == NormalizeEmail(email))
    ensures StoreInvariant(s) && r.Some? ==> r.value.email == NormalizeEmail(email)
  {
    var k := NormalizeEmail(email);
    if k in s then assert s[k] in s.Values; Some(s[k]) else None
  }

  /** The keyed lookup agrees with a scan of the whole collection: it finds
      a user exactly when some stored user has the normalised email. */
  lemma FindByEmailScans(s: Store, email: string)
    requires StoreInvariant(s)
    ensures FindByEmail(s, email).Some? <==> exists u :: u in s.Values && u.email == NormalizeEmail(email)
  {
    var k := NormalizeEmail(email);
    if k in s {
      assert s[k] in s.Values;
    }
  }

  datatype CreateError = Invalid(paths: set<UserPath>) | DuplicateKey

  datatype Inserted = Inserted(store: Store, user: UserRecord)

  /** `User.create`: validate, then insert, where the unique index rejects a
      second record with the same email. The store grows by exactly the new
      record and keeps its invariant. */
  function InsertUser(s: Store, input: UserInput): (r: Result<Inserted, CreateError>)
    ensures r.Ok? <==> CreateUser(input).Ok? && CreateUser(input).value.email !in s
    ensures r.Ok? ==> r.value.user == CreateUser(input).value
    ensures r.Ok? ==> r.value.store == s[r.value.user.email := r.value.user]
    ensures r.Ok? ==> |r.value.store| == |s| + 1
    ensures StoreInvariant(s) && r.Ok? ==> StoreInvariant(r.value.store)
    ensures r.Err? && CreateUser(input).Err? ==> r.error == Invalid(CreateUser(input).error)
    ensures r.Err? && CreateUser(input).Ok? ==> r.error == DuplicateKey
  {
    match CreateUser(input)
    case Err(paths) => Err(Invalid(paths))
    case Ok(u) =>
      if u.email in s then Err(DuplicateKey)
      else
        AddKeepsInvariant(s, u);
        Ok(Inserted(s[u.email := u], u))
  }

  lemma AddKeepsInvariant(s: Store, u: UserRecord)
    requires u.email !in s
    ensures |s[u.email := u]| == |s| + 1
    ensures StoreInvariant(s) && WellFormed(u) ==> StoreInvariant(s[u.email := u])
  {
  }
}

=== FILE: values.dfy ===
/** Small value types shared by the model: absent JavaScript values, results
    with an error side, and the opaque MongoDB document identifier. */
module Values {

  /** A value that may be absent (`undefined` in the source). */
  datatype Option<+T> = None | Some(value: T)

  /** An outcome that either carries a value or an error. */
  datatype Result<+T, +E> = Ok(value: T) | Err(error: E)

  /** A MongoDB ObjectId; only its identity matters here. */
  datatype ObjectId = ObjectId(raw: nat)
}
